=== FILE: README.md ===
# Jarvik client core in Dafny

This project models the three pieces of the Jarvik client that carry
decisions rather than plumbing:

- the **keyword model router** (`choose_model`): lower-case the prompt,
  then the first matching keyword rule picks `phi3`, `llama3` or `mistral`;
- the **context client** (`get_context`, `_load_cache`): read the on-disk
  cache, call the context service, write the answer through on success,
  fall back to a fresh cached answer when the service cannot be reached,
  and report a reply body that is not JSON as its own error;
- the **CLI session** (`JarvikCLI`): the session record (URL, user name,
  key, model, memory scope, model list) and the commands `login`,
  `logout`, `models`, `setmodel`, `setmemory`, `ask`, `code` and `exit` as
  pure transitions, with the request fields derived from the session.

Modules: `Wrappers` (the `Option` type), `Text` (Python's `str.lower`,
`str.strip` and `in` on strings), `ModelRouter`, `FuraClient`, `Cli`.

Outside effects are parameters:

- The context service's answer is an `Outcome`: `Ok(result)`, `NetErr(msg)` or `BadJson(text)`.
- The clock is an integer `now`.
- The cache file is a `Store`: `Absent`, `Unreadable`, `NotJson` or `Decoded(cache)`.
- The attempt to write the cache back is a `SaveResult`: `Saved`, `OpenFailed` or `WriteFailed`.
- The server's model listing is a `Listing`: `Listed(names)` or `ListFailed`.
- The files `code` can open are a set `readable`.

Three facts about the code shape the model:

- The router removes no diacritics. It matches the accented literals
  "kód" and "právo", so "zpracuj kod" goes to `mistral`
  (`ModelRouter.UnaccentedKeywordIsNotMatched`).
- On a request failure, `get_context` falls back only to a FRESH cached
  answer. A stale entry is never returned (`FuraClient.StaleEntryIsNeverReturned`).
- `app/fura_client.py` has no size bound, eviction or locking, so none is
  modelled. tests/test_cache.py:16-31 calls `_open_cache` and `_prune_cache`
  and sets `CACHE_MAX_ITEMS`, none of which that module defines.

## Model

| member | source | states |
|---|---|---|
| ModelRouter.ChooseModel | app/model_router.py:1-8 | the result is always one of phi3, llama3, mistral; it is phi3 exactly when "program" or "kód" occurs in the lowered prompt, llama3 exactly when neither does but "právo" or "smlouva" does, and mistral exactly when none of the four occurs |
| ModelRouter.CodeKeywordWins | app/model_router.py:3-6 | rule priority: with both a programming and a legal keyword present the answer is phi3 |
| ModelRouter.SameLoweringSameModel | app/model_router.py:2 | two prompts equal after lower-casing get the same model |
| ModelRouter.ChooseModelIgnoresCase | app/model_router.py:2 | lower-casing the prompt first does not change the choice |
| ModelRouter.Phi3IsStableUnderExtension | app/model_router.py:3-4 | a prompt routed to phi3 stays routed to phi3 whatever text is appended |
| ModelRouter.UnaccentedKeywordIsNotMatched | app/model_router.py:3-8 | matching is literal: "zpracuj kod" (no accent) contains no keyword and goes to mistral |
| ModelRouter.AccentedKeywordIsMatched | app/model_router.py:2-4 | "Zpracuj kód" is lowered and matched on "kód", giving phi3 |
| ModelRouter.CapitalCodeKeywordIsMatched | app/model_router.py:2-4 | "KÓD" lowers to "kód" and goes to phi3 |
| ModelRouter.CapitalLegalKeywordIsMatched | app/model_router.py:2-6 | "PRÁVO" lowers to "právo" and, with no programming keyword, goes to llama3 |
| Text.Contains | app/model_router.py:3 | the scan answers true exactly when the pattern occurs at some index of the text |
| Text.LowerChar | app/model_router.py:2 | the lowered character is never upper case, and it differs from the input exactly when the input is an upper-case letter |
| Text.Lower | app/model_router.py:2 | the lowered string has the same length, no upper-case letter, and at each index the lowered character of the input |
| Text.LowerIdempotent | app/model_router.py:2 | lowering a lowered string changes nothing |
| Text.LowerAppend | app/model_router.py:2 | lowering distributes over concatenation |
| Text.Strip | app/cli.py:79 | the result is empty exactly when the input is all whitespace; otherwise it neither starts nor ends with whitespace and is a slice of the input with only whitespace around it |
| Text.StripIdempotent | app/cli.py:92 | stripping a stripped string changes nothing |
| FuraClient.LoadCache | app/fura_client.py:12-19 | a missing cache file, or one that is not valid JSON, loads as the empty cache; a decoded file loads as its contents; a file that cannot be opened or is not UTF-8 raises, since only the JSON decoding error is caught |
| FuraClient.SaveCache | app/fura_client.py:22-27 | a completed write loads back as the cache written; a failed open leaves the file as it was; a write that fails after the truncating open leaves a file that loads as empty |
| FuraClient.IsFresh | app/fura_client.py:34 | an entry is fresh when it is strictly younger than 24 hours, a missing timestamp counting as 0 |
| FuraClient.FreshData | app/fura_client.py:33-37 | cached data is usable exactly when the query's entry exists, is younger than the TTL (missing timestamp read as 0) and has non-null data, and it is that entry's data |
| FuraClient.ContextRequest | app/fura_client.py:30-47 | the request goes to `{api_url}/get_context`, with the default service URL when none is given, with a bearer header of the key, carries query and user, and its public flag is true exactly when the memory scope is "public" (an omitted scope is "private") |
| FuraClient.OmittedIsDefault | app/fura_client.py:30 | omitting the URL or memory scope is the same as passing the default service URL and "private" |
| FuraClient.ErrorObject | app/fura_client.py:56-58 | the error objects hold an "error" text and a "details" text |
| FuraClient.ErrorObjectsAreDistinct | app/fura_client.py:53-58 | the request error and the invalid-JSON error differ whatever their details |
| FuraClient.GetContext | app/fura_client.py:30-58 | an unreadable cache file raises before any request; on success the result is returned unchanged and, when the write completes, stored under the query with the current time while every other key keeps its entry; a write failing after the open leaves a file that no longer decodes; only the success branch touches the file; on a request failure a fresh cached answer is returned, else the "API request failed" error with the failure's text; a body that is not JSON gives the "Invalid JSON response" error with the raw text |
| FuraClient.FreshnessBoundaryIsStrict | app/fura_client.py:34 | an entry exactly TTL seconds old is stale and one second younger is fresh |
| FuraClient.StaleEntryIsNeverReturned | app/fura_client.py:53-56 | with no entry, or a stale one, a request failure yields the request error, never the cached data |
| FuraClient.SaveFailureDoesNotChangeAnswer | app/fura_client.py:22-27 | the returned value is the same whatever happens to the cache write |
| FuraClient.FailedWriteLosesCache | app/fura_client.py:22-27 | after a write that fails past the truncating open, the next call loads an empty cache, so a request failure then yields the request error |
| FuraClient.BadJsonIgnoresCache | app/fura_client.py:57-58 | a body that is not JSON gives the same answer whatever readable cache file is there |
| FuraClient.CacheRoundTrip | app/fura_client.py:49-55 | after a successful fetch whose write completes, a request failure less than TTL later returns the fetched value, unless that value was JSON null, which yields the request error |
| FuraClient.CacheExpires | app/fura_client.py:33-37 | after a successful fetch whose write completes, a request failure TTL or more later yields the request error |
| Cli.FetchModels | app/cli.py:29-40 | a failed listing changes nothing; a successful one installs the list, keeps a listed model, moves an unlisted model to the first listed name, leaves the model alone for an empty list, and touches no other field |
| Cli.Login | app/cli.py:54-63 | fewer than three tokens change nothing; otherwise the first three become URL, user name and key, model and model list become what the listing makes of them, the memory scope is kept, and the login gate then passes exactly when the user name and key tokens are non-empty |
| Cli.LoginIgnoresExtraTokens | app/cli.py:61 | tokens after the third make no difference to login |
| Cli.Logout | app/cli.py:65-70 | URL, user name and key become empty, model, scope and list are kept, and the login gate fails afterwards |
| Cli.SetModel | app/cli.py:76-87 | a blank name, or a name missing from a non-empty model list, changes nothing; otherwise the model becomes the stripped name and nothing else changes |
| Cli.SetMemory | app/cli.py:89-97 | the stripped, lower-cased word is taken when it is "private" or "public", any other word leaves the session unchanged, and a valid scope stays valid |
| Cli.RequestFields | app/cli.py:108-115 | remember is true exactly when the scope is "public"; an empty URL or model is sent as null, a non-empty one as itself; user name and key are sent verbatim |
| Cli.FieldsDetermineSession | app/cli.py:108-115 | on a valid session the memory scope, URL, model, user name and key can all be read back from the request fields |
| Cli.Ask | app/cli.py:99-115 | a request is produced exactly when the login gate passes and the message is not blank; it carries the stripped message and the session's fields |
| Cli.FirstUnreadable | app/cli.py:139-146 | no path is reported exactly when every path is readable; otherwise the reported path is unreadable and every path before it is readable |
| Cli.Code | app/cli.py:126-182 | the login gate comes first, then at least two tokens are needed; a reported unreadable path is the first unreadable one among the main file and then the extra files in order; a request is produced exactly when all those files are readable, with main file, instruction and extra files in order and the session's fields |
| Cli.InitialIsValid | app/cli.py:13-20 | the fresh session has no URL, user name, key or model, the "private" scope and an empty model list; it is valid and not logged in |
| Cli.LoggedIn | app/cli.py:23-27 | the login gate passes when both the key and the user name are non-empty |
| Cli.LoginGateIgnoresUrl | app/cli.py:23-27 | the login gate passes exactly when key and user name are non-empty, whatever the URL is |
| Cli.Step | app/cli.py:54-208 | dispatch of one command: `login`, `logout`, `models`, `setmodel` and `setmemory` run their transitions (`models` refetches the list); `ask`, `code` and `exit` leave the session unchanged; only `login` and `logout` touch the credentials |
| Cli.Run | app/cli.py:202-214 | the command loop, ended by `exit`/`quit`; a run with no `login` or `logout` keeps the credentials |
| Cli.RunSnoc | app/cli.py:202-214 | the loop applies its commands in order: one more command after an exit-free run is one more step |
| Cli.ExitEndsRun | app/cli.py:202-208 | commands after an `exit` have no effect on the session |
| Cli.StepPreservesValid | app/cli.py:54-97 | every command keeps the memory scope "private" or "public" and, whenever a model list is known, the model on it |
| Cli.RunPreservesValid | app/cli.py:13-97 | any sequence of commands from a valid session, such as the initial one, ends in a valid session |
| Cli.LoginOverwritesCredentials | app/cli.py:61 | a successful login replaces all three credentials, so a preceding logout makes no difference |
| Cli.LogoutUndoesLogin | app/cli.py:61-70 | from a logged-out session, login then logout leaves only the effect of the model listing |
| Cli.SettersAreIdempotent | app/cli.py:79-96 | repeating setmodel or setmemory with the same argument changes nothing further |
| Cli.SetMemoryNormalises | app/cli.py:92-96 | " PUBLIC " is accepted as the public scope |

## Left out

- HTTP calls, file reads and writes, and terminal output are not modelled. Their results enter as `Outcome`, `Store`, `SaveResult`, `Listing` and `readable`.
- FuraClient.SaveCache: a write that fails only after every byte reached the file is treated as a completed write. Any other write failure after the open is taken to leave a file that is not valid JSON.
- `time.time()` returns a float; the model uses integer seconds.
- JSON numbers are integers, and JSON is a small value type. `json.dumps`, including the chunk-wise escaping of file contents in `code`, is not modelled.
- Text.LowerChar: lower-cases only ASCII, Latin-1 capitals and the Czech capitals with a caron or ring, not the whole of Unicode. The modelled lowering maps each character to one character, independently of its neighbours. Python's `str.lower` does neither: U+0130 lowers to two characters and Greek capital sigma depends on its context. So the length preservation in `Text.Lower` and `Text.LowerAppend` hold only for the modelled lowering.
- `shlex.split` is not modelled. Commands take an already split token list, so an unbalanced quote is out of scope.
- `os.path.basename` and the file contents sent by `code` are not modelled. The model keeps which files are sent and in what order.
- A file that opens during the check in `code` but fails while being streamed is not modelled.
- Cache files that decode to something other than an object of entries are not modelled. This includes entries whose timestamp is null or not a number, on which the source raises.
- A model listing whose body is not a list of names is not modelled.
- The `requests` exception hierarchy is not modelled. A body that is not JSON is its own `BadJson` outcome, following the order of the two `except` branches.
- `_print_response` and the HTTP status of `ask`/`code` responses only affect output and are not modelled.
- An empty input line is no command in the model. This holds only because of the `emptyline` override at app/cli.py:210-211. Without it, `cmd.Cmd` would repeat the last non-empty command, such as a `login` or `setmodel`.
- app/main.py (the server route and model runner), main.js (the desktop shell) and tests/test_cache.py are not part of this model. The test exercises `_open_cache`, `_prune_cache` and `CACHE_MAX_ITEMS`, which app/fura_client.py does not define.

=== FILE: cli.dfy ===
/** The session state of the command-line client in app/cli.py, with all
    terminal and network I/O removed. Commands arrive already split into
    tokens (as `shlex.split` leaves them) or as the raw rest of the line;
    the answer of the server's model listing is a parameter. */
module Cli {
  import opened Wrappers
  import opened Text

  const Private := "private"
  const Public := "public"

  /** The fields of `JarvikCLI`. */
  datatype Session = Session(
    apiUrl: string,
    username: string,
    apiKey: string,
    model: string,
    memory: string,
    models: seq<string>)

  /** The state `__init__` sets up. */
  const Initial := Session("", "", "", "", Private, [])

  /** `memory` holds one of the two scopes the server understands. */
  predicate MemoryValid(s: Session) {
    s.memory == Private || s.memory == Public
  }

  /** Whenever a model list is known, the chosen model is on it. */
  predicate ModelListed(s: Session) {
    |s.models| > 0 ==> s.model in s.models
  }

  /** The invariant every reachable session keeps. */
  predicate Valid(s: Session) {
    MemoryValid(s) && ModelListed(s)
  }

  /** `_require_login`: both the key and the user name are non-empty; the
      URL is not looked at. */
  predicate LoggedIn(s: Session) {
    s.apiKey != "" && s.username != ""
  }

  /** The answer of `GET {BASE_URL}/models`: a list of names, or any
      failure (connection error, error status, bad body). */
  datatype Listing = Listed(names: seq<string>) | ListFailed

  /** `_fetch_models`: a failed listing changes nothing; a successful one
      replaces the list and moves the model to the first listed one when
      the current model is not listed. */
  function FetchModels(s: Session, listing: Listing): (t: Session)
    ensures listing.ListFailed? ==> t == s
    ensures listing.Listed? ==> t.models == listing.names
    ensures listing.Listed? && |listing.names| > 0 ==> t.model in listing.names
    ensures listing.Listed? && s.model in listing.names ==> t.model == s.model
    ensures listing.Listed? && |listing.names| == 0 ==> t.model == s.model
    ensures t.model == s.model || (listing.Listed? && t.model == listing.names[0])
    ensures t.(model := s.model, models := s.models) == s
  {
    match listing
    case ListFailed => s
    case Listed(names) =>
      if |names| > 0 && s.model !in names then s.(models := names, model := names[0])
      else s.(models := names)
  }

  /** `do_login`: with fewer than three tokens nothing changes; otherwise the
      first three become URL, user name and key (the rest are ignored) and
      the model list is fetched. */
  function Login(s: Session, parts: seq<string>, listing: Listing): (t: Session)
    ensures |parts| < 3 ==> t == s
    ensures |parts| >= 3 ==>
      && t.apiUrl == parts[0] && t.username == parts[1] && t.apiKey == parts[2]
      && t.memory == s.memory
      && t.models == FetchModels(s, listing).models
      && t.model == FetchModels(s, listing).model
    ensures |parts| >= 3 ==> (LoggedIn(t) <==> parts[1] != "" && parts[2] != "")
  {
    if |parts| < 3 then s
    else FetchModels(s.(apiUrl := parts[0], username := parts[1], apiKey := parts[2]), listing)
  }

  /** `do_logout`: clears exactly the three credentials. */
  function Logout(s: Session): (t: Session)
    ensures t.apiUrl == "" && t.username == "" && t.apiKey == ""
    ensures t.model == s.model && t.memory == s.memory && t.models == s.models
    ensures !LoggedIn(t)
  {
    s.(apiUrl := "", username := "", apiKey := "")
  }

  /** `do_setmodel`: the stripped name is taken unless it is blank or a
      known, non-empty model list does not contain it. */
  function SetModel(s: Session, line: string): (t: Session)
    ensures AllSpace(line) ==> t == s
    ensures |s.models| > 0 && Strip(line) !in s.models ==> t == s
    ensures !AllSpace(line) && (|s.models| == 0 || Strip(line) in s.models) ==>
      t.model == Strip(line) && t.model != "" && t.(model := s.model) == s
  {
    var name := Strip(line);
    if name == [] then s
    else if |s.models| > 0 && name !in s.models then s
    else s.(model := name)
  }

  /** `do_setmemory`: the stripped, lower-cased word is taken when it is one
      of the two scopes; anything else leaves the session as it was. */
  function SetMemory(s: Session, line: string): (t: Session)
    ensures t == s || (t == s.(memory := t.memory) && MemoryValid(t))
    ensures Lower(Strip(line)) == Private || Lower(Strip(line)) == Public ==>
      t == s.(memory := Lower(Strip(line)))
    ensures Lower(Strip(line)) != Private && Lower(Strip(line)) != Public ==> t == s
    ensures MemoryValid(s) ==> MemoryValid(t)
  {
    var mem := Lower(Strip(line));
    if mem == Private || mem == Public then s.(memory := mem) else s
  }

  /** The session-derived fields of every request body. An empty URL or
      model goes out as JSON null; user name and key go out verbatim. */
  datatype Fields = Fields(
    apiUrl: Option<string>,
    username: string,
    apiKey: string,
    model: Option<string>,
    remember: bool)

  /** The fields `do_ask` and `do_code` derive from the session. */
  function RequestFields(s: Session): (f: Fields)
    ensures f.remember <==> s.memory == Public
    ensures f.apiUrl == None <==> s.apiUrl == ""
    ensures f.apiUrl.Some? ==> f.apiUrl.value == s.apiUrl
    ensures f.model == None <==> s.model == ""
    ensures f.model.Some? ==> f.model.value == s.model
    ensures f.username == s.username && f.apiKey == s.apiKey
  {
    Fields(
      if s.apiUrl == "" then None else Some(s.apiUrl),
      s.username,
      s.apiKey,
      if s.model == "" then None else Some(s.model),
      s.memory == Public)
  }

  /** The body of `POST /ask`. */
  datatype AskRequest = AskRequest(message: string, fields: Fields)

  /** `do_ask`: nothing is sent without a login or with a blank message;
      otherwise the stripped message goes out with the session fields. */
  function Ask(s: Session, line: string): (r: Option<AskRequest>)
    ensures r.Some? <==> LoggedIn(s) && !AllSpace(line)
    ensures r.Some? ==> r.value.message == Strip(line) && r.value.fields == RequestFields(s)
  {
    if !LoggedIn(s) then None
    else
      var message := Strip(line);
      if message == [] then None
      else Some(AskRequest(message, RequestFields(s)))
  }

  /** The result of `do_code`: one of its three early exits, or the body of
      `POST /code` (file contents are not modelled, only which files). */
  datatype CodeResult =
    | CodeNotLoggedIn
    | CodeUsage
    | CannotRead(path: string)
    | CodeRequest(mainFile: string, instruction: string, extraFiles: seq<string>, fields: Fields)

  /** The first path, in order, that is not readable. */
  function FirstUnreadable(paths: seq<string>, readable: set<string>): (r: Option<string>)
    ensures r.None? <==> forall i :: 0 <= i < |paths| ==> paths[i] in readable
    ensures r.Some? ==> exists i :: FirstUnreadableAt(paths, readable, i) && paths[i] == r.value
  {
    if paths == [] then None
    else if paths[0] !in readable then
      assert FirstUnreadableAt(paths, readable, 0);
      Some(paths[0])
    else
      var r := FirstUnreadable(paths[1..], readable);
      if r.Some? then
        assert exists i :: FirstUnreadableAt(paths, readable, i) && paths[i] == r.value by {
          var i :| FirstUnreadableAt(paths[1..], readable, i) && paths[1..][i] == r.value;
          assert FirstUnreadableAt(paths, readable, i + 1);
        }
        r
      else
        r
  }

  /** `paths[i]` is unreadable and every earlier path is readable. */
  ghost predicate FirstUnreadableAt(paths: seq<string>, readable: set<string>, i: int) {
    0 <= i < |paths| && paths[i] !in readable
    && forall j :: 0 <= j < i ==> paths[j] in readable
  }

  /** `do_code`: the login gate, then at least two tokens (main file and
      instruction, extra files after them in order), then every file must
      open, checked in order main file first. */
  function Code(s: Session, parts: seq<string>, readable: set<string>): (r: CodeResult)
    ensures r.CodeNotLoggedIn? <==> !LoggedIn(s)
    ensures r.CodeUsage? <==> LoggedIn(s) && |parts| < 2
    ensures r.CannotRead? ==> r.path !in readable && (r.path == parts[0] || r.path in parts[2..])
    ensures r.CannotRead? ==> FirstUnreadable([parts[0]] + parts[2..], readable) == Some(r.path)
    ensures r.CodeRequest? <==>
      LoggedIn(s) && |parts| >= 2 && parts[0] in readable
      && forall i :: 2 <= i < |parts| ==> parts[i] in readable
    ensures r.CodeRequest? ==>
      && r.mainFile == parts[0] && r.instruction == parts[1] && r.extraFiles == parts[2..]
      && r.fields == RequestFields(s)
  {
    if !LoggedIn(s) then CodeNotLoggedIn
    else if |parts| < 2 then CodeUsage
    else
      var paths := [parts[0]] + parts[2..];
      var bad := FirstUnreadable(paths, readable);
      assert forall i :: 2 <= i < |parts| ==> parts[i] == paths[i - 1];
      if bad.Some? then
        assert bad.value == parts[0] || bad.value in parts[2..] by {
          var i :| FirstUnreadableAt(paths, readable, i) && paths[i] == bad.value;
          assert i == 0 || paths[i] == parts[2..][i - 1];
        }
        CannotRead(bad.value)
      else
        assert paths[0] == parts[0];
        CodeRequest(parts[0], parts[1], parts[2..], RequestFields(s))
  }

  // -----------------------------------------------------------------------
  // The command loop
  // -----------------------------------------------------------------------

  /** One command of the loop, with whatever its I/O would have supplied. */
  datatype Command =
    | LoginCmd(parts: seq<string>, listing: Listing)
    | LogoutCmd
    | ModelsCmd(listing: Listing)
    | SetModelCmd(line: string)
    | SetMemoryCmd(line: string)
    | AskCmd(line: string)
    | CodeCmd(parts: seq<string>, readable: set<string>)
    | ExitCmd

  /** The session after one command; `ask`, `code` and `exit` only send or
      stop and leave it as it was, and only `login` and `logout` touch the
      credentials. */
  function Step(s: Session, c: Command): (t: Session)
    ensures c.LoginCmd? ==> t == Login(s, c.parts, c.listing)
    ensures c.LogoutCmd? ==> t == Logout(s)
    ensures c.ModelsCmd? ==> t == FetchModels(s, c.listing)
    ensures c.SetModelCmd? ==> t == SetModel(s, c.line)
    ensures c.SetMemoryCmd? ==> t == SetMemory(s, c.line)
    ensures c.AskCmd? || c.CodeCmd? || c.ExitCmd? ==> t == s
    ensures !c.LoginCmd? && !c.LogoutCmd? ==> SameCredentials(s, t)
  {
    match c
    case LoginCmd(parts, listing) => Login(s, parts, listing)
    case LogoutCmd => Logout(s)
    case ModelsCmd(listing) => FetchModels(s, listing)
    case SetModelCmd(line) => SetModel(s, line)
    case SetMemoryCmd(line) => SetMemory(s, line)
    case AskCmd(_) => s
    case CodeCmd(_, _) => s
    case ExitCmd => s
  }

  /** URL, user name and key agree. */
  predicate SameCredentials(s: Session, t: Session) {
    s.apiUrl == t.apiUrl && s.username == t.username && s.apiKey == t.apiKey
  }

  /** The session after a run of commands; `exit` ends the loop. A run
      without `login` or `logout` keeps the credentials. */
  function Run(s: Session, cmds: seq<Command>): (t: Session)
    ensures (forall i :: 0 <= i < |cmds| ==> !cmds[i].LoginCmd? && !cmds[i].LogoutCmd?) ==>
      SameCredentials(s, t)
    decreases |cmds|
  {
    if cmds == [] || cmds[0].ExitCmd? then s else Run(Step(s, cmds[0]), cmds[1..])
  }

  /** The initial session satisfies the invariant. */
  lemma InitialIsValid()
    ensures Valid(Initial) && !LoggedIn(Initial)
    ensures Initial.apiUrl == "" && Initial.username == "" && Initial.apiKey == ""
    ensures Initial.model == "" && Initial.memory == Private && Initial.models == []
  {
  }

  /** The login gate does not look at the URL. */
  lemma LoginGateIgnoresUrl(s: Session, url: string)
    ensures LoggedIn(s.(apiUrl := url)) == LoggedIn(s)
    ensures LoggedIn(s) <==> s.apiKey != "" && s.username != ""
  {
  }

  /** `exit` ends the loop: nothing after it has any effect. */
  lemma {:induction false} ExitEndsRun(s: Session, cmds: seq<Command>, rest: seq<Command>)
    ensures Run(s, cmds + [ExitCmd] + rest) == Run(s, cmds)
    decreases |cmds|
  {
    if cmds == [] {
      assert cmds + [ExitCmd] + rest == [ExitCmd] + rest;
    } else if !cmds[0].ExitCmd? {
      assert (cmds + [ExitCmd] + rest)[1..] == cmds[1..] + [ExitCmd] + rest;
      ExitEndsRun(Step(s, cmds[0]), cmds[1..], rest);
    }
  }

  /** On a valid session the request fields lose nothing: the scope, URL
      and model can be read back from them. */
  lemma FieldsDetermineSession(s: Session)
    requires Valid(s)
    ensures s.memory == (if RequestFields(s).remember then Public else Private)
    ensures s.apiUrl == RequestFields(s).apiUrl.GetOr("")
    ensures s.model == RequestFields(s).model.GetOr("")
    ensures s.username == RequestFields(s).username && s.apiKey == RequestFields(s).apiKey
  {
  }

  /** Every command keeps the invariant. */
  lemma StepPreservesValid(s: Session, c: Command)
    requires Valid(s)
    ensures Valid(Step(s, c))
  {
  }

  /** The loop applies its commands one after another: running one more
      command after an exit-free run is one more `Step`. */
  lemma {:induction false} RunSnoc(s: Session, cmds: seq<Command>, c: Command)
    requires forall i :: 0 <= i < |cmds| ==> !cmds[i].ExitCmd?
    ensures Run(s, cmds + [c]) == Step(Run(s, cmds), c)
    decreases |cmds|
  {
    if cmds == [] {
      assert cmds + [c] == [c];
    } else {
      assert (cmds + [c])[1..] == cmds[1..] + [c];
      RunSnoc(Step(s, cmds[0]), cmds[1..], c);
    }
  }

  /** Every run of commands from a valid session ends in a valid session;
      in particular every session reachable from `Initial`. */
  lemma {:induction false} RunPreservesValid(s: Session, cmds: seq<Command>)
    requires Valid(s)
    ensures Valid(Run(s, cmds))
    decreases |cmds|
  {
    if cmds != [] && !cmds[0].ExitCmd? {
      StepPreservesValid(s, cmds[0]);
      RunPreservesValid(Step(s, cmds[0]), cmds[1..]);
    }
  }

  /** A successful `login` replaces all three credentials, so what was
      stored before it (or whether `logout` ran first) makes no difference. */
  lemma LoginOverwritesCredentials(s: Session, parts: seq<string>, listing: Listing)
    requires |parts| >= 3
    ensures Login(Logout(s), parts, listing) == Login(s, parts, listing)
  {
  }

  /** Tokens after the third are ignored by `login`. */
  lemma LoginIgnoresExtraTokens(s: Session, parts: seq<string>, listing: Listing)
    requires |parts| >= 3
    ensures Login(s, parts, listing) == Login(s, parts[..3], listing)
  {
  }

  /** `logout` after `login` leaves the model choice, scope and list that
      the login established, and no credentials. */
  lemma LogoutUndoesLogin(s: Session, parts: seq<string>, listing: Listing)
    requires |parts| >= 3 && s.apiUrl == "" && s.username == "" && s.apiKey == ""
    ensures Logout(Login(s, parts, listing)) == FetchModels(s, listing)
  {
  }

  /** Repeating `setmodel` or `setmemory` with the same argument changes
      nothing further. */
  lemma SettersAreIdempotent(s: Session, line: string)
    ensures SetModel(SetModel(s, line), line) == SetModel(s, line)
    ensures SetMemory(SetMemory(s, line), line) == SetMemory(s, line)
  {
  }

  /** `setmemory` accepts the word in any case and with surrounding blanks.
      (The concrete line is a parameter pinned by `requires`: given a string
      literal directly, Dafny unrolls `Strip` and `Lower` without bound.) */
  lemma SetMemoryNormalises(s: Session, line: string)
    requires line == " PUBLIC "
    ensures SetMemory(s, line).memory == Public
  {
    StripPadded(line);
    LowerPublic(line[1..7]);
  }

  /** Blanks around "PUBLIC" are stripped. */
  lemma StripPadded(line: string)
    requires line == " PUBLIC "
    ensures Strip(line) == line[1..7] == "PUBLIC"
  {
    var word := line[1..7];
    assert TrimStart(line) == TrimStart(line[1..]);
    assert !IsSpace(line[1..][0]);
    assert TrimStart(line[1..]) == line[1..];
    assert line[1..][..|line[1..]| - 1] == word;
    assert TrimEnd(line[1..]) == TrimEnd(word);
    assert !IsSpace(word[|word| - 1]);
  }

  /** "PUBLIC" lowers to "public". */
  lemma LowerPublic(word: string)
    requires word == "PUBLIC"
    ensures Lower(word) == Public
  {
    forall i | 0 <= i < |word| ensures Lower(word)[i] == Public[i] {
      LowerAt(word, i);
    }
  }
}

=== FILE: fura_client.dfy ===
/** The context client of app/fura_client.py: `get_context` reads the
    on-disk cache, calls the context service, writes the cache through on
    success and falls back to a fresh cached answer when the service cannot
    be reached.

    The network call is an abstract `Outcome`, the clock reading `now` is an
    integer parameter, the cache file is a `Store` and what happened to the
    attempt to write it back is a `SaveResult`. */
module FuraClient {
  import opened Wrappers

  /** An entry is fresh for 24 hours, in seconds. */
  const CacheTtl: int := 60 * 60 * 24

  /** The service and memory scope used when the caller names none. */
  const DefaultApiUrl := "https://fura.jarvik-ai.tech"
  const DefaultMemory := "private"

  const ApiRequestFailed := "API request failed"
  const InvalidJsonResponse := "Invalid JSON response"

  /** A JSON value, as `json.load` / `res.json()` produce it (numbers are
      integers here). */
  datatype Json =
    | JNull
    | JBool(b: bool)
    | JNum(n: int)
    | JStr(s: string)
    | JArr(items: seq<Json>)
    | JObj(fields: map<string, Json>)

  /** One cached answer: `{"timestamp": t, "data": d}`. A missing timestamp
      is `None`; a missing or null `data` are both `JNull`, because
      `cached.get("data")` returns `None` for either. */
  datatype Entry = Entry(timestamp: Option<int>, data: Json)

  /** The cache: query text to entry, exact string keys. */
  type Cache = map<string, Entry>

  /** The cache file as found on disk: missing; present but not openable as
      UTF-8 text (a permission error, bytes that are not UTF-8); readable
      text that is not JSON (including an empty or cut-off file); or a
      decoded cache. */
  datatype Store = Absent | Unreadable | NotJson | Decoded(cache: Cache)

  /** What `_save_cache` achieved: the file was written; `open` failed, so
      the file is untouched; or `open` truncated the file and the write
      then failed, leaving it empty or cut off. Both failures are
      swallowed. */
  datatype SaveResult = Saved | OpenFailed | WriteFailed

  /** What the call to `{api_url}/get_context` came back with: a decoded
      body, a request failure (connection error, timeout or an error status),
      or a body that is not JSON. */
  datatype Outcome = Ok(result: Json) | NetErr(msg: string) | BadJson(text: string)

  /** How `get_context` ends: it returns a value (the file possibly
      rewritten), or reading the cache file raised before any request was
      sent. */
  datatype Reply = Returned(value: Json, store: Store) | Raised

  /** The error object the client returns instead of a context payload. */
  function ErrorObject(error: string, details: string): Json {
    JObj(map["error" := JStr(error), "details" := JStr(details)])
  }

  /** `_load_cache`: a missing file, or one that is not JSON, loads as the
      empty cache; a file that cannot be read raises (`None`), since only
      the JSON decoding error is caught. */
  function LoadCache(store: Store): (c: Option<Cache>)
    ensures c.None? <==> store.Unreadable?
    ensures store.Absent? || store.NotJson? ==> c == Some(map[])
    ensures store.Decoded? ==> c == Some(store.cache)
  {
    match store
    case Unreadable => None
    case Decoded(cache) => Some(cache)
    case _ => Some(map[])
  }

  /** The file `_save_cache` leaves behind when asked to store `cache`. */
  function SaveCache(before: Store, cache: Cache, save: SaveResult): (s: Store)
    ensures save.Saved? ==> LoadCache(s) == Some(cache)
    ensures save.OpenFailed? ==> s == before
    ensures save.WriteFailed? ==> LoadCache(s) == Some(map[])
  {
    match save
    case Saved => Decoded(cache)
    case OpenFailed => before
    case WriteFailed => NotJson
  }

  /** The freshness test: strictly younger than the TTL, a missing timestamp
      counting as 0. */
  predicate IsFresh(e: Entry, now: int) {
    now - e.timestamp.GetOr(0) < CacheTtl
  }

  /** `cached_data`: the data of the entry for `query` when it is present,
      fresh and non-null. (A falsy entry, `{}`, has null data, so the
      truthiness test of the source adds nothing here.) */
  function FreshData(cache: Cache, query: string, now: int): (d: Option<Json>)
    ensures d.Some? <==> query in cache && IsFresh(cache[query], now) && cache[query].data != JNull
    ensures d.Some? ==> d.value == cache[query].data
  {
    if query in cache && IsFresh(cache[query], now) && cache[query].data != JNull then
      Some(cache[query].data)
    else
      None
  }

  /** The request sent to the context service. */
  datatype ContextCall = ContextCall(url: string, authorization: string, query: string, user: string, public: bool)

  /** The URL, bearer header and JSON body `get_context` posts; an omitted
      URL or memory scope takes the parameter's default. */
  function ContextRequest(query: string, apiKey: string, username: string, apiUrl: Option<string>, memory: Option<string>): (c: ContextCall)
    ensures c.public <==> memory == Some("public")
    ensures apiUrl.None? ==> c.url == DefaultApiUrl + "/get_context"
    ensures apiUrl.Some? ==> c.url == apiUrl.value + "/get_context"
    ensures c.authorization == "Bearer " + apiKey
    ensures c.query == query && c.user == username
  {
    ContextCall(apiUrl.GetOr(DefaultApiUrl) + "/get_context", "Bearer " + apiKey, query, username,
                memory.GetOr(DefaultMemory) == "public")
  }

  /** `get_context` for one call. */
  function GetContext(store: Store, query: string, now: int, outcome: Outcome, save: SaveResult): (r: Reply)
    // an unreadable file raises before anything is sent
    ensures r.Raised? <==> store.Unreadable?
    // success: the answer is returned unchanged and written through under
    // `query`, every other key kept, unless the write fails
    ensures r.Returned? && outcome.Ok? ==> r.value == outcome.result
    ensures r.Returned? && outcome.Ok? && save.Saved? ==>
      var loaded := LoadCache(store).value;
      && r.store.Decoded?
      && query in r.store.cache
      && r.store.cache[query] == Entry(Some(now), outcome.result)
      && forall k :: k != query ==>
           (k in r.store.cache <==> k in loaded)
           && (k in loaded ==> r.store.cache[k] == loaded[k])
    ensures r.Returned? && outcome.Ok? && save.WriteFailed? ==> r.store == NotJson
    // only the success branch touches the file
    ensures r.Returned? && (!outcome.Ok? || save.OpenFailed?) ==> r.store == store
    // unreachable service: a fresh cached answer, else the request error
    ensures r.Returned? && outcome.NetErr? && FreshData(LoadCache(store).value, query, now).Some? ==>
      r.value == LoadCache(store).value[query].data
    ensures r.Returned? && outcome.NetErr? && FreshData(LoadCache(store).value, query, now).None? ==>
      r.value == ErrorObject(ApiRequestFailed, outcome.msg)
    // garbage body: its own error, the cache is not consulted
    ensures r.Returned? && outcome.BadJson? ==> r.value == ErrorObject(InvalidJsonResponse, outcome.text)
  {
    match LoadCache(store)
    case None => Raised
    case Some(cache) =>
      var cachedData := FreshData(cache, query, now);
      match outcome
      case Ok(result) =>
        Returned(result, SaveCache(store, cache[query := Entry(Some(now), result)], save))
      case NetErr(msg) =>
        if cachedData.Some? then Returned(cachedData.value, store)
        else Returned(ErrorObject(ApiRequestFailed, msg), store)
      case BadJson(text) =>
        Returned(ErrorObject(InvalidJsonResponse, text), store)
  }

  /** The two error objects are distinct whatever their details, so a
      caller can tell "could not reach" from "reached but got garbage". */
  lemma ErrorObjectsAreDistinct(msg: string, text: string)
    ensures ErrorObject(ApiRequestFailed, msg) != ErrorObject(InvalidJsonResponse, text)
  {
    assert ErrorObject(ApiRequestFailed, msg).fields["error"] == JStr(ApiRequestFailed);
  }

  /** Leaving out the URL or the memory scope is the same as passing the
      parameter's default. */
  lemma OmittedIsDefault(query: string, apiKey: string, username: string)
    ensures ContextRequest(query, apiKey, username, None, None)
         == ContextRequest(query, apiKey, username, Some(DefaultApiUrl), Some(DefaultMemory))
  {
  }

  /** An entry exactly TTL seconds old is stale, one a second younger is
      fresh. */
  lemma FreshnessBoundaryIsStrict(e: Entry, now: int)
    requires e.timestamp == Some(now - CacheTtl)
    ensures !IsFresh(e, now)
    ensures IsFresh(e.(timestamp := Some(now - CacheTtl + 1)), now)
  {
  }

  /** A stale or absent entry is never returned: without fresh data the
      unreachable-service branch reports the request error. */
  lemma StaleEntryIsNeverReturned(cache: Cache, query: string, now: int, msg: string, save: SaveResult)
    requires query !in cache || !IsFresh(cache[query], now)
    ensures GetContext(Decoded(cache), query, now, NetErr(msg), save)
         == Returned(ErrorObject(ApiRequestFailed, msg), Decoded(cache))
  {
  }

  /** Whether the cache file could be written does not change the answer. */
  lemma SaveFailureDoesNotChangeAnswer(store: Store, query: string, now: int, outcome: Outcome, s1: SaveResult, s2: SaveResult)
    requires !store.Unreadable?
    ensures GetContext(store, query, now, outcome, s1).value
         == GetContext(store, query, now, outcome, s2).value
  {
  }

  /** A write that fails after the file was opened loses the whole cache:
      the next call loads it as empty, so an unreachable service is then
      reported as an error even for a query cached a moment ago. */
  lemma FailedWriteLosesCache(store: Store, query: string, t0: int, t1: int, result: Json, msg: string, save: SaveResult)
    requires !store.Unreadable?
    ensures var after := GetContext(store, query, t0, Ok(result), WriteFailed).store;
      LoadCache(after) == Some(map[])
      && GetContext(after, query, t1, NetErr(msg), save).value == ErrorObject(ApiRequestFailed, msg)
  {
  }

  /** A garbage body gets the same answer whatever readable cache is there. */
  lemma BadJsonIgnoresCache(s1: Store, s2: Store, query: string, now: int, text: string, save: SaveResult)
    requires !s1.Unreadable? && !s2.Unreadable?
    ensures GetContext(s1, query, now, BadJson(text), save).value
         == GetContext(s2, query, now, BadJson(text), save).value
  {
  }

  /** Cache round trip: after a successful fetch at `t0` whose write completes, an
      unreachable service at a later `t1` less than TTL on is answered with
      the fetched value — provided that value is not JSON null, which the
      cache cannot tell apart from "no data". */
  lemma CacheRoundTrip(store: Store, query: string, t0: int, t1: int, result: Json, msg: string, save: SaveResult)
    requires !store.Unreadable?
    requires t1 - t0 < CacheTtl
    ensures var after := GetContext(store, query, t0, Ok(result), Saved).store;
      GetContext(after, query, t1, NetErr(msg), save).value
        == (if result == JNull then ErrorObject(ApiRequestFailed, msg) else result)
  {
  }

  /** ... and once TTL seconds have passed the fetched value is no longer
      served. */
  lemma CacheExpires(store: Store, query: string, t0: int, t1: int, result: Json, msg: string, save: SaveResult)
    requires !store.Unreadable?
    requires t1 - t0 >= CacheTtl
    ensures var after := GetContext(store, query, t0, Ok(result), Saved).store;
      GetContext(after, query, t1, NetErr(msg), save).value == ErrorObject(ApiRequestFailed, msg)
  {
  }
}

=== FILE: model_router.dfy ===
/** The keyword router of app/model_router.py: the prompt is lower-cased and
    the first rule whose keyword occurs in it picks the model. Matching is
    an exact substring test; accents are NOT removed, so the keywords are
    the accented literals "kód" and "právo". */
module ModelRouter {
  import opened Text

  const Phi3 := "phi3"
  const Llama3 := "llama3"
  const Mistral := "mistral"

  const KeywordProgram := "program"
  const KeywordCode := "k\U{F3}d"        // "kód"
  const KeywordLaw := "pr\U{E1}vo"       // "právo"
  const KeywordContract := "smlouva"

  /** The first rule: a programming keyword occurs in the (lowered) text. */
  ghost predicate HasCodeKeyword(text: string) {
    Occurs(text, KeywordProgram) || Occurs(text, KeywordCode)
  }

  /** The second rule: a legal keyword occurs in the (lowered) text. */
  ghost predicate HasLegalKeyword(text: string) {
    Occurs(text, KeywordLaw) || Occurs(text, KeywordContract)
  }

  /** `choose_model`: one of three models, chosen by rule priority over the
      lower-cased prompt. */
  function ChooseModel(prompt: string): (m: string)
    ensures m == Phi3 || m == Llama3 || m == Mistral
    ensures m == Phi3 <==> HasCodeKeyword(Lower(prompt))
    ensures m == Llama3 <==> !HasCodeKeyword(Lower(prompt)) && HasLegalKeyword(Lower(prompt))
    ensures m == Mistral <==> !HasCodeKeyword(Lower(prompt)) && !HasLegalKeyword(Lower(prompt))
  {
    var text := Lower(prompt);
    if Contains(text, KeywordProgram) || Contains(text, KeywordCode) then
      Phi3
    else if Contains(text, KeywordLaw) || Contains(text, KeywordContract) then
      Llama3
    else
      Mistral
  }

  /** Priority: a programming keyword wins even when a legal keyword is
      present as well. */
  lemma CodeKeywordWins(prompt: string)
    requires HasCodeKeyword(Lower(prompt)) && HasLegalKeyword(Lower(prompt))
    ensures ChooseModel(prompt) == Phi3
  {
  }

  /** The choice depends only on the lower-cased prompt. */
  lemma SameLoweringSameModel(a: string, b: string)
    requires Lower(a) == Lower(b)
    ensures ChooseModel(a) == ChooseModel(b)
  {
  }

  /** Lower-casing the prompt beforehand does not change the choice. */
  lemma ChooseModelIgnoresCase(prompt: string)
    ensures ChooseModel(Lower(prompt)) == ChooseModel(prompt)
  {
    LowerIdempotent(prompt);
  }

  /** Once a programming keyword has routed a prompt to phi3, appending any
      text keeps it there. */
  lemma Phi3IsStableUnderExtension(prompt: string, more: string)
    requires ChooseModel(prompt) == Phi3
    ensures ChooseModel(prompt + more) == Phi3
  {
    LowerAppend(prompt, more);
    if Occurs(Lower(prompt), KeywordProgram) {
      OccursExtend(Lower(prompt), Lower(more), KeywordProgram);
    } else {
      OccursExtend(Lower(prompt), Lower(more), KeywordCode);
    }
  }

  // The two examples below take their prompt as a parameter pinned by
  // `requires`: given a string literal directly, Dafny unrolls `Lower` and
  // `Contains` without bound.

  /** Matching is literal: the unaccented spelling "zpracuj kod" contains no
      keyword and goes to mistral. */
  lemma UnaccentedKeywordIsNotMatched(plain: string)
    requires plain == "zpracuj kod"
    ensures ChooseModel(plain) == Mistral
  {
    assert NoUpper(plain);
    LowerFixesNoUpper(plain);
    MissingCharNoOccurrence(plain, KeywordProgram, 3);   // no 'g'
    MissingCharNoOccurrence(plain, KeywordCode, 1);      // no 'ó'
    MissingCharNoOccurrence(plain, KeywordLaw, 2);       // no 'á'
    MissingCharNoOccurrence(plain, KeywordContract, 1);  // no 'm'
  }

  /** The accented spelling, capitalised, is lowered and then matched:
      "Zpracuj kód" goes to phi3. */
  lemma AccentedKeywordIsMatched(accented: string)
    requires accented == "Zpracuj k\U{F3}d"
    ensures ChooseModel(accented) == Phi3
  {
    var lowered := "zpracuj k\U{F3}d";
    forall i | 0 <= i < |accented| ensures Lower(accented)[i] == lowered[i] {
      LowerAt(accented, i);
    }
    assert Lower(accented) == lowered;
    assert lowered[8..11] == KeywordCode;
    assert OccursAt(lowered, KeywordCode, 8);
  }

  /** An all-capital keyword is found: "KÓD" lowers to "kód" (the accented
      capital U+00D3 becomes U+00F3) and goes to phi3. */
  lemma CapitalCodeKeywordIsMatched(prompt: string)
    requires prompt == "K\U{D3}D"
    ensures ChooseModel(prompt) == Phi3
  {
    assert Lower(prompt) == KeywordCode;
    assert OccursAt(Lower(prompt), KeywordCode, 0);
  }

  /** "PRÁVO" lowers to "právo" (U+00C1 becomes U+00E1) and, with no
      programming keyword in it, goes to llama3. */
  lemma CapitalLegalKeywordIsMatched(prompt: string)
    requires prompt == "PR\U{C1}VO"
    ensures ChooseModel(prompt) == Llama3
  {
    assert Lower(prompt) == KeywordLaw;
    assert OccursAt(Lower(prompt), KeywordLaw, 0);
    MissingCharNoOccurrence(KeywordLaw, KeywordProgram, 3);  // no 'g'
    MissingCharNoOccurrence(KeywordLaw, KeywordCode, 0);     // no 'k'
  }
}

=== FILE: text.dfy ===
/** String helpers the client code relies on: Python's `str.lower`,
    `str.strip` and the substring test `pat in text`.

    Lower-casing is modelled for the characters the program's keywords and
    commands can involve: ASCII, the upper half of Latin-1 and the Czech
    letters with a caron. Every other character is left as it is. */
module Text {

  // ---------------------------------------------------------------------
  // Whitespace and `str.strip`
  // ---------------------------------------------------------------------

  /** Python's `str.isspace` for a single character. */
  predicate IsSpace(c: char) {
    || c == ' ' || c == '\t' || c == '\n' || c == '\r'
    || c == '\U{0B}' || c == '\U{0C}'
    || ('\U{1C}' <= c <= '\U{1F}')
    || c == '\U{85}' || c == '\U{A0}' || c == '\U{1680}'
    || ('\U{2000}' <= c <= '\U{200A}')
    || c == '\U{2028}' || c == '\U{2029}' || c == '\U{202F}'
    || c == '\U{205F}' || c == '\U{3000}'
  }

  /** Every character of `s` is whitespace (vacuously true of ""). */
  ghost predicate AllSpace(s: string) {
    forall i :: 0 <= i < |s| ==> IsSpace(s[i])
  }

  /** `s` with its leading whitespace removed: a suffix of `s`, the dropped
      prefix is all whitespace, and what is left does not start with any. */
  function TrimStart(s: string): (r: string)
    ensures |r| <= |s| && r == s[|s| - |r|..]
    ensures AllSpace(s[..|s| - |r|])
    ensures r == [] || !IsSpace(r[0])
  {
    if |s| > 0 && IsSpace(s[0]) then
      var r := TrimStart(s[1..]);
      TrimStartStep(s, r);
      r
    else
      s
  }

  /** The inductive step of `TrimStart`: dropping one leading space before
      the rest is trimmed keeps the dropped prefix all whitespace. */
  lemma TrimStartStep(s: string, r: string)
    requires |s| > 0 && IsSpace(s[0])
    requires |r| <= |s| - 1 && r == s[1..][|s| - 1 - |r|..]
    requires AllSpace(s[1..][..|s| - 1 - |r|])
    ensures r == s[|s| - |r|..]
    ensures AllSpace(s[..|s| - |r|])
  {
  }

  /** `s` with its trailing whitespace removed: a prefix of `s`, the dropped
      suffix is all whitespace, and what is left does not end with any. */
  function TrimEnd(s: string): (r: string)
    ensures |r| <= |s| && r == s[..|r|]
    ensures AllSpace(s[|r|..])
    ensures r == [] || !IsSpace(r[|r| - 1])
  {
    if |s| > 0 && IsSpace(s[|s| - 1]) then
      var r := TrimEnd(s[..|s| - 1]);
      assert forall i :: |r| <= i < |s| - 1 ==> s[i] == s[..|s| - 1][i];
      r
    else
      s
  }

  /** Python's `s.strip()`. */
  function Strip(s: string): (r: string)
    ensures r == [] <==> AllSpace(s)
    ensures r != [] ==> !IsSpace(r[0]) && !IsSpace(r[|r| - 1])
    ensures exists i :: StrippedAt(s, r, i)
  {
    var t := TrimStart(s);
    var r := TrimEnd(t);
    var i := |s| - |t|;
    assert s[i..i + |r|] == r;
    assert s[i + |r|..] == t[|r|..];
    assert StrippedAt(s, r, i);
    if r == [] then
      assert t == [];
      assert s[..i] == s;
      r
    else
      assert !IsSpace(s[i]);
      r
  }

  /** `r` is the part of `s` that starts at index `i`, with only whitespace
      around it. */
  ghost predicate StrippedAt(s: string, r: string, i: int) {
    0 <= i && i + |r| <= |s| && s[i..i + |r|] == r
    && AllSpace(s[..i]) && AllSpace(s[i + |r|..])
  }

  /** Stripping twice is the same as stripping once. */
  lemma StripIdempotent(s: string)
    ensures Strip(Strip(s)) == Strip(s)
  {
  }

  // ---------------------------------------------------------------------
  // Lower-casing
  // ---------------------------------------------------------------------

  /** The Czech capitals with a caron or ring (Latin Extended-A), whose
      lower-case form is the next code point. */
  predicate IsCzechCapital(c: char) {
    || c == '\U{010C}' || c == '\U{010E}' || c == '\U{011A}'  // Č Ď Ě
    || c == '\U{0147}' || c == '\U{0158}' || c == '\U{0160}'  // Ň Ř Š
    || c == '\U{0164}' || c == '\U{016E}' || c == '\U{017D}'  // Ť Ů Ž
  }

  /** The upper-case letters this model lower-cases: A-Z, Latin-1 À-Þ
      except the multiplication sign, and the Czech capitals. */
  predicate IsUpper(c: char) {
    || ('A' <= c <= 'Z')
    || ('\U{C0}' <= c <= '\U{DE}' && c != '\U{D7}')
    || IsCzechCapital(c)
  }

  /** Python's `str.lower` on one character: an upper-case letter becomes its
      lower-case partner, every other character is returned as it is. */
  function LowerChar(c: char): (d: char)
    ensures !IsUpper(d)
    ensures IsUpper(c) <==> d != c
  {
    if 'A' <= c <= 'Z' || ('\U{C0}' <= c <= '\U{DE}' && c != '\U{D7}') then
      (c as int + 32) as char
    else if IsCzechCapital(c) then
      (c as int + 1) as char
    else
      c
  }

  /** No character of `s` is upper case. */
  ghost predicate NoUpper(s: string) {
    forall i :: 0 <= i < |s| ==> !IsUpper(s[i])
  }

  /** Python's `s.lower()`, character by character. */
  function Lower(s: string): (r: string)
    ensures |r| == |s|
    ensures NoUpper(r)
    ensures forall i :: 0 <= i < |s| ==> r[i] == LowerChar(s[i])
  {
    if s == [] then [] else [LowerChar(s[0])] + Lower(s[1..])
  }

  /** The i-th character of the lowered string is the lowered i-th character. */
  lemma {:induction false} LowerAt(s: string, i: int)
    requires 0 <= i < |s|
    ensures Lower(s)[i] == LowerChar(s[i])
  {
    if i > 0 {
      LowerAt(s[1..], i - 1);
    }
  }

  /** A string with no upper-case letter is its own lower-case form. */
  lemma {:induction false} LowerFixesNoUpper(s: string)
    requires NoUpper(s)
    ensures Lower(s) == s
  {
    if s != [] {
      assert !IsUpper(s[0]);
      LowerFixesNoUpper(s[1..]);
      assert s == [s[0]] + s[1..];
    }
  }

  /** Lower-casing twice is the same as lower-casing once. */
  lemma LowerIdempotent(s: string)
    ensures Lower(Lower(s)) == Lower(s)
  {
  }

  /** Lower-casing distributes over concatenation. */
  lemma {:induction false} LowerAppend(s: string, t: string)
    ensures Lower(s + t) == Lower(s) + Lower(t)
  {
    if s != [] {
      assert (s + t)[1..] == s[1..] + t;
      LowerAppend(s[1..], t);
    } else {
      assert s + t == t;
    }
  }

  // ---------------------------------------------------------------------
  // Substring test
  // ---------------------------------------------------------------------

  /** `pat` occurs in `text` starting at index `i`. */
  ghost predicate OccursAt(text: string, pat: string, i: int) {
    0 <= i && i + |pat| <= |text| && text[i..i + |pat|] == pat
  }

  /** `pat` occurs somewhere in `text` (the empty string occurs everywhere). */
  ghost predicate Occurs(text: string, pat: string) {
    exists i :: OccursAt(text, pat, i)
  }

  /** Python's `pat in text`: a left-to-right scan for the first position
      where `pat` starts. */
  function Contains(text: string, pat: string): (b: bool)
    ensures b <==> Occurs(text, pat)
    decreases |text|
  {
    if |text| < |pat| then
      assert forall i :: !OccursAt(text, pat, i);
      false
    else if text[..|pat|] == pat then
      assert OccursAt(text, pat, 0);
      true
    else
      var b := Contains(text[1..], pat);
      ShiftOccurs(text, pat);
      b
  }

  /** When `pat` does not start `text`, it occurs in `text` exactly when it
      occurs in `text` without its first character. */
  lemma ShiftOccurs(text: string, pat: string)
    requires |text| >= |pat| && text[..|pat|] != pat
    ensures Occurs(text, pat) <==> Occurs(text[1..], pat)
  {
    if Occurs(text, pat) {
      var i :| OccursAt(text, pat, i);
      assert i != 0;
      assert text[1..][i - 1..i - 1 + |pat|] == text[i..i + |pat|];
      assert OccursAt(text[1..], pat, i - 1);
    }
    if Occurs(text[1..], pat) {
      var i :| OccursAt(text[1..], pat, i);
      assert text[i + 1..i + 1 + |pat|] == text[1..][i..i + |pat|];
      assert OccursAt(text, pat, i + 1);
    }
  }

  /** An occurrence survives appending more text. */
  lemma OccursExtend(text: string, more: string, pat: string)
    requires Occurs(text, pat)
    ensures Occurs(text + more, pat)
  {
    var i :| OccursAt(text, pat, i);
    assert (text + more)[i..i + |pat|] == text[i..i + |pat|];
    assert OccursAt(text + more, pat, i);
  }

  /** A pattern with a character that `text` lacks does not occur in it. */
  lemma MissingCharNoOccurrence(text: string, pat: string, k: int)
    requires 0 <= k < |pat|
    requires forall j :: 0 <= j < |text| ==> text[j] != pat[k]
    ensures !Occurs(text, pat)
  {
    forall i ensures !OccursAt(text, pat, i) {
      if 0 <= i && i + |pat| <= |text| {
        assert text[i..i + |pat|][k] == text[i + k];
      }
    }
  }
}

=== FILE: wrappers.dfy ===
/** An optional value, used wherever the Python code has a value or `None`:
    an absent cache timestamp, a request field sent as JSON null, a cache
    file that could not be loaded. */
module Wrappers {

  datatype Option<T> = None | Some(value: T) {

    /** The present value, or `default` for `None`: the shape of Python's
        `d.get(key, default)` and of a parameter's default value. */
    function GetOr(default: T): T {
      match this
      case Some(v) => v
      case None => default
    }
  }
}
